=== FILE: README.md ===
# git-semver `latest`: verified model of the tag-selection policy

This project models how git-semver decides which tag of a repository is the
"latest" semantic version (`latest/latest.go`), and the companion
`GetVersions` (`git_utils/get_versions.go`), which lists the versions of all
parseable tags.

The repository is reduced to a value. `Repository` records whether the work
tree lookup, the `git rev-list --tags --max-count=1` run and the `Tags()` call
failed. It also holds the finite stream of items the tag iterator yields before
EOF: a tag (short name plus opaque target) or an iterator error. The semantic-version
package is not modelled. Its parser is a function parameter
`string -> Option<Version>`. Its comparator is a function parameter
`(Version, Version) -> int`, and the only assumption is that it is a total
preorder: reflexive, sign-antisymmetric, transitive and total (`SemVer.IsTotalPreorder`).
Every Dafny function value is deterministic, so re-parsing a name always gives
the same answer.

Modules, one per part of the source:

- `Wrappers`: `Option` for a Go pointer that may be nil and `Result` for a `(value, error)` pair.
- `SemVer`: `Version`, `EmptyVersion` (`0.0.0`), and the parser and comparator types with the preorder predicate.
- `Git`: tag references, the iterator stream, the repository, the error kinds and their messages, and `FirstError`.
- `TagFilter`: the first loop of `findLatestVersionTag`, which checks the `v` prefix, the parse, the pre-release filter and the major filter.
- `MaxSelect`: the second loop, a fold that replaces the running maximum only on a strictly greater version.
- `Latest`: `findLatestVersionTag` as a function and as a two-loop method, plus `FindLatestVersion`, `tagNameToVersion` and `Latest`.
- `GetVersions`: the filter-map over tag names, as a function and as a loop.

Main results:

- A selected tag has a `v` prefix, parses, and passes both filters. A negative major filter restricts nothing.
- A tag that is not a candidate leaves the outcome unchanged, wherever it appears in the stream. This covers a missing prefix, a parse failure and a filtered-out version. Such a tag is never an error.
- The selected tag is a candidate of the stream. No candidate is strictly greater, and every earlier candidate is strictly smaller, so the first of equal maxima wins. That stream position is unique.
- The "no valid semantic version tag found" error cannot occur.
- When the prechecks and the iterator succeed but no tag is a candidate, the result is the "no matching semantic version tags found" error, and `Latest` reports `EmptyVersion` with that error.
- A work-tree, `rev-list`, `Tags()` or iterator failure reaches the caller of `Latest` unchanged, together with `EmptyVersion`.
- `GetVersions` returns the versions of exactly the parseable tags, in iteration order and without any prefix check. An iterator error discards the partial result.

## Model

| member | source | states |
|---|---|---|
| `Git.FirstErrorIndex` | latest/latest.go:80-83 | the iterator yields only tags before this position, and an error at it unless it is the end of the stream |
| `Git.FirstError` | latest/latest.go:80-83 | none only when every item the iterator yields is a tag; otherwise the cause of the earliest iterator error, before which every item is a tag |
| `Git.FirstErrorAppend` | latest/latest.go:80-83 | the error that aborts the scan of a concatenated stream is the first part's, or else the second part's |
| `Git.Message` | latest/latest.go:106-109 | the no-match error prints as "no matching semantic version tags found" |
| `TagFilter.Candidates` | latest/latest.go:77-104 | `foundTags` is no longer than the stream and every entry has a `v` prefix, parses, and passes the pre-release and major filters |
| `TagFilter.CandidatesAppend` | latest/latest.go:77-104 | collecting candidates distributes over concatenation, so candidates keep their iteration order |
| `TagFilter.SkippedItemIgnored` | latest/latest.go:85-100 | an item that is not a candidate tag can be removed from the stream without changing `foundTags` |
| `TagFilter.CandidatePosition` | latest/latest.go:97-103 | every candidate tag of the stream is appended to `foundTags`, after exactly the candidates that precede it |
| `TagFilter.CandidateOrigin` | latest/latest.go:77-104 | every entry of `foundTags` is a tag of the stream, preceded in `foundTags` by exactly the candidates before its stream position |
| `TagFilter.HasCandidateIffNonEmpty` | latest/latest.go:106-109 | `foundTags` is empty exactly when no tag of the stream is a candidate |
| `TagFilter.NegativeMajorFiltersAgree` | latest/latest.go:97-100 | any two negative major filters select the same candidates |
| `MaxSelect.MaxFold` | latest/latest.go:111-124 | the running maximum, when set, is a position of the list holding `latestTag` with `maxVersion` as its parse; it stays unset only when no name in the list parses |
| `MaxSelect.MaxFoldIsFirstMaximum` | latest/latest.go:111-124 | the maximum loop ends on a tag that no parseable tag exceeds and that every earlier parseable tag is strictly below |
| `MaxSelect.FirstMaximumUnique` | latest/latest.go:120-123 | at most one position is the first maximum, so the tie-break is deterministic |
| `Latest.PrecheckError` | latest/latest.go:57-74 | no failure exactly when the work tree lookup, the `git rev-list` run and `Tags()` all succeed; otherwise the first failure in that order |
| `Latest.FindLatestVersionTag` | latest/latest.go:54-131 | a returned tag's name is non-empty and starts with `v`, parses and passes both filters, so no pre-release when they are excluded and the filtered major when the filter is non-negative; "no valid semantic version tag found" is never returned |
| `Latest.FindLatestVersionTagOutcome` | latest/latest.go:54-109 | a tag is returned exactly when every precheck succeeds, the iterator yields no error and some tag is a candidate; "no matching semantic version tags found" exactly when every precheck succeeds, the iterator yields no error and no tag is a candidate; precheck and iterator errors are passed through, in that order |
| `Latest.FindLatestVersionTagSelects` | latest/latest.go:111-130 | the returned tag sits at a stream position that is a candidate, no candidate is strictly greater, and every earlier candidate is strictly smaller |
| `Latest.SelectedAtUnique` | latest/latest.go:120-123 | at most one stream position meets that selection property |
| `Latest.SkippedTagIgnored` | latest/latest.go:85-100 | a tag without a `v` prefix, one that fails to parse, or one that a filter excludes can be inserted anywhere in the stream without changing the result or causing an error |
| `Latest.NegativeMajorFilterNoRestriction` | latest/latest.go:97-100 | every negative major filter gives the same result as the command line's default of -1 |
| `Latest.ScanCandidates` | latest/latest.go:77-104 | the filter loop as written fails exactly when the iterator yields an error, returning the first one and no partial list; otherwise it returns `foundTags` |
| `Latest.ScanMaximum` | latest/latest.go:111-124 | the maximum loop as written computes the fold and ends on the first maximum |
| `Latest.ScanLatestVersionTag` | latest/latest.go:54-131 | the function as written, built from the two loops, computes the selection; a returned tag meets the selection property, and "no matching" is returned only when there is no candidate |
| `Latest.FindLatestVersion` | latest/latest.go:40-52 | the tag is nil exactly when there is an error, and then the version is nil too; otherwise the version is the non-nil parse of the tag's short name and passes both filters; "no valid semantic version tag found" never appears |
| `Latest.FindLatestVersionSelects` | latest/latest.go:40-51 | a tag is reported exactly when the prechecks and the iterator succeed and some tag is a candidate, and that tag sits at the selected stream position |
| `Latest.FindLatestVersionErrors` | latest/latest.go:40-45 | the error is the selection's error unchanged: a precheck failure, else the first iterator error, else "no matching semantic version tags found" when no tag is a candidate |
| `Latest.TagNameToVersion` | latest/latest.go:133-143 | nil exactly when the name fails to parse, otherwise the parsed version |
| `Latest.Latest` | latest/latest.go:20-38 | an open failure gives a nil version and the error "Could not open git repository: " followed by the cause; otherwise the version is never nil, is `EmptyVersion` whenever an error is reported, and passes both filters when there is none; a precheck failure, or else the first iterator error, is returned unchanged with `EmptyVersion` |
| `Latest.LatestOutcomes` | latest/latest.go:30-36 | with working prechecks and iterator, no candidate gives `EmptyVersion` with "no matching semantic version tags found", and a candidate gives the parse of the selected tag with no error |
| `GetVersions.ParsedVersions` | git_utils/get_versions.go:19-35 | the list of versions is no longer than the stream |
| `GetVersions.GetVersions` | git_utils/get_versions.go:9-38 | the call fails exactly when `Tags()` fails or the iterator yields an error, and then returns only that error: the `Tags()` error, else the first iterator error; otherwise the result is no longer than the stream; an empty stream gives an empty result |
| `GetVersions.ParsedVersionsAppend` | git_utils/get_versions.go:21-35 | parsing distributes over concatenation, so versions keep iteration order |
| `GetVersions.ParsedVersionsSingle` | git_utils/get_versions.go:26-34 | a single tag contributes its version exactly when its name parses |
| `GetVersions.ParsedVersionPosition` | git_utils/get_versions.go:26-34 | every tag whose name parses contributes its version, whatever its prefix, after exactly the versions of the tags before it |
| `GetVersions.ParsedVersionOrigin` | git_utils/get_versions.go:28-34 | every listed version is the parse of a tag of the stream, preceded by exactly the versions of the tags before it |
| `GetVersions.GetVersionsMembers` | git_utils/get_versions.go:21-37 | on success a version is listed exactly when some tag of the stream parses to it |
| `GetVersions.ScanVersions` | git_utils/get_versions.go:9-38 | the loop as written computes `GetVersions`, and on success every parseable tag's version is in the result |

## Left out

- Opening the repository, `Worktree()`, the `git rev-list` subprocess and `Tags()` are I/O. Each is represented only by an optional failure cause. The subprocess's output is discarded by the source, so only its failure is modelled. The `Workdir` option is replaced by the outcome of opening.
- The tag iterator's `Close()` has no effect on the result and is not modelled.
- The parser, comparator, `ToString` and `EmptyVersion` of the semantic-version packages are foreign code. The parser and comparator are parameters. `EmptyVersion` is taken to be `0.0.0` with no pre-release and no build metadata. `GetVersions` uses a different semantic-version package, so its version type and parser are separate generic parameters.
- The debug log line in `tagNameToVersion` is a side effect only.
- The command line in `cli/latest/command.go` (flags, printing, `Fatalln`) is argument plumbing. Only its `-1` default for `major-version` is recorded, as `Latest.DefaultMajorVersionFilter`.
- The `latestVersionTag == nil` branch of `FindLatestVersion` (latest/latest.go:47-49) has no counterpart. `findLatestVersionTag` never returns a nil tag without an error, and the `Result` type cannot express that combination.
- Tag references are compared as values (short name and target), not by pointer identity.
- The code has no branch scoping and treats "no match" as an error; the model does the same.

=== FILE: get_versions.dfy ===
/** `GetVersions`: every tag name that parses, mapped to its version, in
    iteration order. It uses a different semantic-version package from the
    resolver, so its version type and parser are parameters here. Unlike
    `findLatestVersionTag` it applies no `v`-prefix check and no filters. */
module GetVersions {
  import opened Wrappers
  import opened Git

  /** The parsed versions of the stream's tags, skipping parse failures and
      ignoring iterator errors (those are handled by `FirstError`). */
  function ParsedVersions<V>(items: seq<TagItem>, parse: string -> Option<V>): (r: seq<V>)
    ensures |r| <= |items|
  {
    if |items| == 0 then []
    else
      var rest := ParsedVersions(items[..|items| - 1], parse);
      var last := items[|items| - 1];
      if last.Tag? && parse(last.ref.shortName).Some? then rest + [parse(last.ref.shortName).value] else rest
  }

  /** The parsed versions of the tags, or the first error of `Tags()` or of
      the iterator; any partial result is discarded on error. */
  function GetVersions<V>(repo: Repository, parse: string -> Option<V>): (r: Result<seq<V>, Error>)
    ensures r.Failure? <==> repo.tagsError.Some? || exists j :: 0 <= j < |repo.tags| && repo.tags[j].IterError?
    ensures r.Failure? ==>
      r.error == External(if repo.tagsError.Some? then repo.tagsError.value else FirstError(repo.tags).value)
    ensures r.Success? ==> |r.value| <= |repo.tags|
    ensures repo.tagsError.None? && |repo.tags| == 0 ==> r == Success([])
  {
    if repo.tagsError.Some? then Failure(External(repo.tagsError.value))
    else
      match FirstError(repo.tags)
      case Some(cause) => Failure(External(cause))
      case None => Success(ParsedVersions(repo.tags, parse))
  }

  /** Parsing distributes over concatenation: versions keep iteration order. */
  lemma {:induction false} ParsedVersionsAppend<V>(a: seq<TagItem>, b: seq<TagItem>, parse: string -> Option<V>)
    ensures ParsedVersions(a + b, parse) == ParsedVersions(a, parse) + ParsedVersions(b, parse)
    decreases |b|
  {
    if |b| == 0 {
      assert a + b == a;
    } else {
      var n := |b| - 1;
      assert (a + b)[..|a + b| - 1] == a + b[..n];
      assert (a + b)[|a + b| - 1] == b[n];
      ParsedVersionsAppend(a, b[..n], parse);
    }
  }

  /** A single tag contributes its version exactly when its name parses. */
  lemma ParsedVersionsSingle<V>(t: TagRef, parse: string -> Option<V>)
    ensures ParsedVersions([Tag(t)], parse) == if parse(t.shortName).Some? then [parse(t.shortName).value] else []
  {
  }

  /** Every tag whose name parses contributes its version, whatever the name's
      prefix; the versions before it are those of the tags before it. */
  lemma ParsedVersionPosition<V>(items: seq<TagItem>, j: nat, parse: string -> Option<V>) returns (i: nat)
    requires j < |items| && items[j].Tag? && parse(items[j].ref.shortName).Some?
    ensures i < |ParsedVersions(items, parse)|
    ensures ParsedVersions(items, parse)[i] == parse(items[j].ref.shortName).value
    ensures ParsedVersions(items, parse)[..i] == ParsedVersions(items[..j], parse)
  {
    var before := items[..j];
    var after := items[j + 1..];
    assert items == before + [items[j]] + after;
    ParsedVersionsAppend(before + [items[j]], after, parse);
    ParsedVersionsAppend(before, [items[j]], parse);
    ParsedVersionsSingle(items[j].ref, parse);
    i := |ParsedVersions(before, parse)|;
  }

  /** Every listed version is the parse of some tag of the stream. */
  lemma {:induction false} ParsedVersionOrigin<V>(items: seq<TagItem>, i: nat, parse: string -> Option<V>) returns (k: nat)
    requires i < |ParsedVersions(items, parse)|
    ensures k < |items| && items[k].Tag?
    ensures parse(items[k].ref.shortName) == Some(ParsedVersions(items, parse)[i])
    ensures ParsedVersions(items[..k], parse) == ParsedVersions(items, parse)[..i]
    decreases |items|
  {
    var n := |items| - 1;
    var rest := ParsedVersions(items[..n], parse);
    if i == |rest| {
      k := n;
    } else {
      k := ParsedVersionOrigin(items[..n], i, parse);
      assert items[..n][..k] == items[..k];
    }
  }

  /** On success the result holds exactly the versions of the tags that
      parse. */
  lemma GetVersionsMembers<V>(repo: Repository, parse: string -> Option<V>, v: V)
    requires GetVersions(repo, parse).Success?
    ensures v in GetVersions(repo, parse).value <==>
      exists j :: 0 <= j < |repo.tags| && repo.tags[j].Tag? && parse(repo.tags[j].ref.shortName) == Some(v)
  {
    var items := repo.tags;
    var r := ParsedVersions(items, parse);
    if v in r {
      var i :| 0 <= i < |r| && r[i] == v;
      var k := ParsedVersionOrigin(items, i, parse);
    }
    if exists j :: 0 <= j < |items| && items[j].Tag? && parse(items[j].ref.shortName) == Some(v) {
      var j :| 0 <= j < |items| && items[j].Tag? && parse(items[j].ref.shortName) == Some(v);
      var i := ParsedVersionPosition(items, j, parse);
    }
  }

  /** `GetVersions` as written: one pass over the iterator, appending each
      successful parse and returning at the first iterator error. */
  method ScanVersions<V>(repo: Repository, parse: string -> Option<V>) returns (r: Result<seq<V>, Error>)
    ensures r == GetVersions(repo, parse)
    ensures r.Success? ==> forall j :: 0 <= j < |repo.tags| && parse(repo.tags[j].ref.shortName).Some? ==>
      parse(repo.tags[j].ref.shortName).value in r.value
  {
    if repo.tagsError.Some? {
      return Failure(External(repo.tagsError.value));
    }
    var items := repo.tags;
    var ret: seq<V> := [];
    var i := 0;
    while i < |items|
      invariant 0 <= i <= |items|
      invariant forall j :: 0 <= j < i ==> items[j].Tag?
      invariant ret == ParsedVersions(items[..i], parse)
    {
      var item := items[i];
      if item.IterError? {
        return Failure(External(item.cause));
      }
      assert items[..i + 1][..i] == items[..i];
      var version := parse(item.ref.shortName);
      if version.Some? {
        ret := ret + [version.value];
      }
      i := i + 1;
    }
    assert items[..i] == items;
    r := Success(ret);
    forall j | 0 <= j < |items| && parse(items[j].ref.shortName).Some?
      ensures parse(items[j].ref.shortName).value in ret
    {
      var p := ParsedVersionPosition(items, j, parse);
    }
  }
}

=== FILE: git.dfy ===
/** The repository, reduced to what the resolver reads from it. Opening the
    repository, the work tree lookup, the `git rev-list` subprocess and the
    `Tags()` call are represented only by whether they failed; the tag iterator
    becomes the finite sequence of what its `Next()` calls return before EOF. */
module Git {
  import opened Wrappers

  /** A tag reference: its short name (e.g. `v1.2.3`) and the object it
      targets, which the resolver never inspects. */
  datatype TagRef = TagRef(shortName: string, target: string)

  /** One call of the tag iterator's `Next()` that did not return EOF. */
  datatype TagItem = Tag(ref: TagRef) | IterError(cause: string)

  datatype Repository = Repository(
    worktreeError: Option<string>,
    revListError: Option<string>,
    tagsError: Option<string>,
    tags: seq<TagItem>)

  /** Errors the resolver reports. `External` passes a repository-layer error
      through unchanged. */
  datatype Error =
    | External(cause: string)
    | CouldNotOpen(cause: string)
    | NoMatchingTags
    | NoValidTag

  /** The text each error prints as. */
  function Message(e: Error): (r: string)
    ensures e.NoMatchingTags? ==> r == "no matching semantic version tags found"
  {
    match e
    case External(cause) => cause
    case CouldNotOpen(cause) => "Could not open git repository: " + cause
    case NoMatchingTags => "no matching semantic version tags found"
    case NoValidTag => "no valid semantic version tag found"
  }

  /** The position of the first iterator error, or the stream's length when
      the iterator yields only tags. */
  function FirstErrorIndex(items: seq<TagItem>): (k: nat)
    ensures k <= |items|
    ensures forall j :: 0 <= j < k ==> items[j].Tag?
    ensures k < |items| ==> items[k].IterError?
  {
    if |items| == 0 || items[0].IterError? then 0
    else
      var k := 1 + FirstErrorIndex(items[1..]);
      assert forall j :: 1 <= j < k ==> items[j] == items[1..][j - 1];
      k
  }

  /** The cause of the first iterator error, scanning in iteration order. */
  function FirstError(items: seq<TagItem>): (r: Option<string>)
    ensures r.None? <==> forall j :: 0 <= j < |items| ==> items[j].Tag?
    ensures r.Some? ==>
      exists k :: 0 <= k < |items| && items[k] == IterError(r.value) &&
        forall j :: 0 <= j < k ==> items[j].Tag?
  {
    var k := FirstErrorIndex(items);
    if k < |items| then Some(items[k].cause) else None
  }

  /** The first error position of a concatenation lies in its first part, or
      else is found in its second. */
  lemma {:induction false} FirstErrorIndexAppend(a: seq<TagItem>, b: seq<TagItem>)
    ensures FirstErrorIndex(a + b)
         == if FirstErrorIndex(a) < |a| then FirstErrorIndex(a) else |a| + FirstErrorIndex(b)
    decreases |a|
  {
    if |a| == 0 {
      assert a + b == b;
    } else {
      assert (a + b)[0] == a[0];
      assert (a + b)[1..] == a[1..] + b;
      FirstErrorIndexAppend(a[1..], b);
    }
  }

  /** The first error of a concatenation is the first error of its first part,
      or else of its second. */
  lemma FirstErrorAppend(a: seq<TagItem>, b: seq<TagItem>)
    ensures FirstError(a + b) == if FirstError(a).Some? then FirstError(a) else FirstError(b)
  {
    FirstErrorIndexAppend(a, b);
    var k := FirstErrorIndex(a);
    if k < |a| {
      assert (a + b)[k] == a[k];
    } else {
      var kb := FirstErrorIndex(b);
      assert kb < |b| ==> (a + b)[|a| + kb] == b[kb];
    }
  }

  /** A tag inserted into the stream does not change its first error. */
  lemma FirstErrorSkipsTag(a: seq<TagItem>, t: TagRef, b: seq<TagItem>)
    ensures FirstError(a + [Tag(t)] + b) == FirstError(a + b)
  {
    FirstErrorAppend(a + [Tag(t)], b);
    FirstErrorAppend(a, [Tag(t)]);
    FirstErrorAppend(a, b);
    assert FirstError([Tag(t)]) == None;
  }
}

=== FILE: latest.dfy ===
/** `findLatestVersionTag`, `FindLatestVersion`, `tagNameToVersion` and
    `Latest`: pick the latest semantic-version tag of a repository. */
module Latest {
  import opened Wrappers
  import opened SemVer
  import opened Git
  import opened TagFilter
  import opened MaxSelect

  /** The command line's default for the major-version filter: no filter. */
  const DefaultMajorVersionFilter: int := -1

  /** The first failure among the steps before tag iteration: the work tree
      lookup, the `git rev-list` run and the `Tags()` call, in that order. */
  function PrecheckError(repo: Repository): (r: Option<string>)
    ensures r.None? <==> repo.worktreeError.None? && repo.revListError.None? && repo.tagsError.None?
    ensures repo.worktreeError.Some? ==> r == repo.worktreeError
    ensures repo.worktreeError.None? && repo.revListError.Some? ==> r == repo.revListError
    ensures repo.worktreeError.None? && repo.revListError.None? ==> r == repo.tagsError
  {
    if repo.worktreeError.Some? then repo.worktreeError
    else if repo.revListError.Some? then repo.revListError
    else repo.tagsError
  }

  /** Stream position `k` holds the selected tag: it is a candidate, no
      candidate of the stream has a strictly greater version, and every
      candidate before it has a strictly smaller one (first wins among equals). */
  ghost predicate SelectedAt(items: seq<TagItem>, k: int, majorVersionFilter: int, includePreReleases: bool, parse: Parser, cmp: Comparator) {
    && 0 <= k < |items|
    && items[k].Tag?
    && IsCandidate(items[k].ref, majorVersionFilter, includePreReleases, parse)
    && (forall j :: 0 <= j < |items| && items[j].Tag? && IsCandidate(items[j].ref, majorVersionFilter, includePreReleases, parse) ==>
          cmp(parse(items[j].ref.shortName).value, parse(items[k].ref.shortName).value) <= 0)
    && (forall j :: 0 <= j < k && items[j].Tag? && IsCandidate(items[j].ref, majorVersionFilter, includePreReleases, parse) ==>
          cmp(parse(items[j].ref.shortName).value, parse(items[k].ref.shortName).value) < 0)
  }

  /** The tag `findLatestVersionTag` returns, or its error: prechecks, then
      the filter loop (aborting on the first iterator error), then the
      maximum loop over the re-parsed candidates. */
  function FindLatestVersionTag(repo: Repository, majorVersionFilter: int, includePreReleases: bool, parse: Parser, cmp: Comparator): (r: Result<TagRef, Error>)
    ensures r.Success? ==> IsCandidate(r.value, majorVersionFilter, includePreReleases, parse)
    ensures r.Success? ==> HasVersionPrefix(r.value.shortName)
    ensures r.Success? ==> |r.value.shortName| > 0 && r.value.shortName[0] == 'v'
    ensures r.Success? && !includePreReleases ==> |parse(r.value.shortName).value.preReleaseTag| == 0
    ensures r.Success? && majorVersionFilter >= 0 ==> parse(r.value.shortName).value.major == majorVersionFilter
    ensures r != Failure(NoValidTag)
  {
    match PrecheckError(repo)
    case Some(cause) => Failure(External(cause))
    case None =>
      match FirstError(repo.tags)
      case Some(cause) => Failure(External(cause))
      case None =>
        var found := Candidates(repo.tags, majorVersionFilter, includePreReleases, parse);
        if |found| == 0 then Failure(NoMatchingTags)
        else
          match MaxFold(found, parse, cmp)
          case None => Failure(NoValidTag)
          case Some(best) => Success(best.tag)
  }

  /** When and with which error the selection fails. */
  lemma FindLatestVersionTagOutcome(repo: Repository, majorVersionFilter: int, includePreReleases: bool, parse: Parser, cmp: Comparator)
    ensures var r := FindLatestVersionTag(repo, majorVersionFilter, includePreReleases, parse, cmp);
      && (r.Success? <==>
            PrecheckError(repo).None? && FirstError(repo.tags).None? &&
            HasCandidate(repo.tags, majorVersionFilter, includePreReleases, parse))
      && (r == Failure(NoMatchingTags) <==>
            PrecheckError(repo).None? && FirstError(repo.tags).None? &&
            !HasCandidate(repo.tags, majorVersionFilter, includePreReleases, parse))
      && (PrecheckError(repo).Some? ==> r == Failure(External(PrecheckError(repo).value)))
      && (PrecheckError(repo).None? && FirstError(repo.tags).Some? ==> r == Failure(External(FirstError(repo.tags).value)))
  {
    HasCandidateIffNonEmpty(repo.tags, majorVersionFilter, includePreReleases, parse);
  }

  /** The selected tag is the first maximum of the candidates, in stream terms. */
  lemma FindLatestVersionTagSelects(repo: Repository, majorVersionFilter: int, includePreReleases: bool, parse: Parser, cmp: Comparator)
    requires IsTotalPreorder(cmp)
    ensures var r := FindLatestVersionTag(repo, majorVersionFilter, includePreReleases, parse, cmp);
      r.Success? ==>
        exists k :: SelectedAt(repo.tags, k, majorVersionFilter, includePreReleases, parse, cmp) && repo.tags[k].ref == r.value
  {
    var r := FindLatestVersionTag(repo, majorVersionFilter, includePreReleases, parse, cmp);
    if r.Success? {
      var items := repo.tags;
      var found := Candidates(items, majorVersionFilter, includePreReleases, parse);
      var best := MaxFold(found, parse, cmp).value;
      MaxFoldIsFirstMaximum(found, parse, cmp);
      var i := best.index;
      var k := CandidateOrigin(items, i, majorVersionFilter, includePreReleases, parse);
      var m := parse(found[i].shortName).value;
      forall j | 0 <= j < |items| && items[j].Tag? && IsCandidate(items[j].ref, majorVersionFilter, includePreReleases, parse)
        ensures cmp(parse(items[j].ref.shortName).value, m) <= 0
      {
        var i' := CandidatePosition(items, j, majorVersionFilter, includePreReleases, parse);
      }
      forall j | 0 <= j < k && items[j].Tag? && IsCandidate(items[j].ref, majorVersionFilter, includePreReleases, parse)
        ensures cmp(parse(items[j].ref.shortName).value, m) < 0
      {
        assert items[..k][j] == items[j];
        var i' := CandidatePosition(items[..k], j, majorVersionFilter, includePreReleases, parse);
        assert found[..i][i'] == found[i'];
      }
      assert SelectedAt(items, k, majorVersionFilter, includePreReleases, parse, cmp);
    }
  }

  /** At most one stream position is selected. */
  lemma SelectedAtUnique(items: seq<TagItem>, k: int, k': int, majorVersionFilter: int, includePreReleases: bool, parse: Parser, cmp: Comparator)
    requires IsTotalPreorder(cmp)
    requires SelectedAt(items, k, majorVersionFilter, includePreReleases, parse, cmp)
    requires SelectedAt(items, k', majorVersionFilter, includePreReleases, parse, cmp)
    ensures k == k'
  {
  }

  /** A tag that is not a candidate (no `v` prefix, a parse failure, or
      filtered out) has no influence on the outcome, wherever it appears. */
  lemma SkippedTagIgnored(repo: Repository, a: seq<TagItem>, t: TagRef, b: seq<TagItem>, majorVersionFilter: int, includePreReleases: bool, parse: Parser, cmp: Comparator)
    requires !IsCandidate(t, majorVersionFilter, includePreReleases, parse)
    ensures FindLatestVersionTag(repo.(tags := a + [Tag(t)] + b), majorVersionFilter, includePreReleases, parse, cmp)
         == FindLatestVersionTag(repo.(tags := a + b), majorVersionFilter, includePreReleases, parse, cmp)
  {
    var withTag := a + [Tag(t)] + b;
    SkippedItemIgnored(a, Tag(t), b, majorVersionFilter, includePreReleases, parse);
    FirstErrorSkipsTag(a, t, b);
    SameScanSameResult(repo.(tags := withTag), repo.(tags := a + b), majorVersionFilter, includePreReleases, parse, cmp);
  }

  /** The outcome depends on the stream only through its first iterator error
      and its candidate list. */
  lemma SameScanSameResult(repo: Repository, repo': Repository, majorVersionFilter: int, includePreReleases: bool, parse: Parser, cmp: Comparator)
    requires PrecheckError(repo) == PrecheckError(repo')
    requires FirstError(repo.tags) == FirstError(repo'.tags)
    requires Candidates(repo.tags, majorVersionFilter, includePreReleases, parse)
          == Candidates(repo'.tags, majorVersionFilter, includePreReleases, parse)
    ensures FindLatestVersionTag(repo, majorVersionFilter, includePreReleases, parse, cmp)
         == FindLatestVersionTag(repo', majorVersionFilter, includePreReleases, parse, cmp)
  {
  }

  /** Every negative major filter behaves like the command line's default. */
  lemma NegativeMajorFilterNoRestriction(repo: Repository, majorVersionFilter: int, includePreReleases: bool, parse: Parser, cmp: Comparator)
    requires majorVersionFilter < 0
    ensures FindLatestVersionTag(repo, majorVersionFilter, includePreReleases, parse, cmp)
         == FindLatestVersionTag(repo, DefaultMajorVersionFilter, includePreReleases, parse, cmp)
  {
    NegativeMajorFiltersAgree(repo.tags, majorVersionFilter, DefaultMajorVersionFilter, includePreReleases, parse);
  }

  /** The filter loop of `findLatestVersionTag` as written: append each
      candidate to `found`, returning at the first iterator error. */
  method ScanCandidates(items: seq<TagItem>, majorVersionFilter: int, includePreReleases: bool, parse: Parser)
    returns (r: Result<seq<TagRef>, Error>)
    ensures r.Failure? <==> exists j :: 0 <= j < |items| && items[j].IterError?
    ensures r.Failure? ==> r == Failure(External(FirstError(items).value))
    ensures r.Success? ==> r.value == Candidates(items, majorVersionFilter, includePreReleases, parse)
  {
    var found: seq<TagRef> := [];
    var i := 0;
    while i < |items|
      invariant 0 <= i <= |items|
      invariant forall j :: 0 <= j < i ==> items[j].Tag?
      invariant found == Candidates(items[..i], majorVersionFilter, includePreReleases, parse)
    {
      var item := items[i];
      if item.IterError? {
        return Failure(External(item.cause));
      }
      assert items[..i + 1][..i] == items[..i];
      var name := item.ref.shortName;
      if HasVersionPrefix(name) {
        var version := parse(name);
        if version.Some? && PassesFilters(version.value, majorVersionFilter, includePreReleases) {
          found := found + [item.ref];
        }
      }
      i := i + 1;
    }
    assert items[..i] == items;
    return Success(found);
  }

  /** The maximum loop of `findLatestVersionTag` as written: re-parse each
      tag and replace the running maximum only on a strictly greater version. */
  method ScanMaximum(found: seq<TagRef>, parse: Parser, cmp: Comparator) returns (best: Option<Best>)
    requires IsTotalPreorder(cmp)
    ensures best == MaxFold(found, parse, cmp)
    ensures best.Some? ==> IsFirstMaximum(found, best.value.index, parse, cmp)
  {
    best := None;
    var n := 0;
    while n < |found|
      invariant 0 <= n <= |found|
      invariant best == MaxFold(found[..n], parse, cmp)
    {
      assert found[..n + 1][..n] == found[..n];
      var version := parse(found[n].shortName);
      if version.Some? && (best.None? || cmp(version.value, best.value.version) > 0) {
        best := Some(Best(n, found[n], version.value));
      }
      n := n + 1;
    }
    assert found[..n] == found;
    MaxFoldIsFirstMaximum(found, parse, cmp);
  }

  /** `findLatestVersionTag` as written: the prechecks, the filter loop, the
      "no matching" check, the maximum loop and the "no valid" check. */
  method ScanLatestVersionTag(repo: Repository, majorVersionFilter: int, includePreReleases: bool, parse: Parser, cmp: Comparator)
    returns (r: Result<TagRef, Error>)
    requires IsTotalPreorder(cmp)
    ensures r == FindLatestVersionTag(repo, majorVersionFilter, includePreReleases, parse, cmp)
    ensures r.Success? ==>
      exists k :: SelectedAt(repo.tags, k, majorVersionFilter, includePreReleases, parse, cmp) && repo.tags[k].ref == r.value
    ensures r.Failure? && r.error == NoMatchingTags ==>
      !HasCandidate(repo.tags, majorVersionFilter, includePreReleases, parse)
  {
    if repo.worktreeError.Some? {
      return Failure(External(repo.worktreeError.value));
    }
    if repo.revListError.Some? {
      return Failure(External(repo.revListError.value));
    }
    if repo.tagsError.Some? {
      return Failure(External(repo.tagsError.value));
    }
    var scanned := ScanCandidates(repo.tags, majorVersionFilter, includePreReleases, parse);
    if scanned.Failure? {
      return Failure(scanned.error);
    }
    var found := scanned.value;
    if |found| == 0 {
      HasCandidateIffNonEmpty(repo.tags, majorVersionFilter, includePreReleases, parse);
      return Failure(NoMatchingTags);
    }
    var best := ScanMaximum(found, parse, cmp);
    if best.None? {
      return Failure(NoValidTag);
    }
    r := Success(best.value.tag);
    FindLatestVersionTagSelects(repo, majorVersionFilter, includePreReleases, parse, cmp);
  }

  /** `tagNameToVersion`: the parse of a tag name, nil on a parse error. */
  function TagNameToVersion(tagName: string, parse: Parser): (r: Option<Version>)
    ensures r.None? <==> parse(tagName).None?
    ensures r.Some? ==> Some(r.value) == parse(tagName)
  {
    parse(tagName)
  }

  /** What `FindLatestVersion` returns: a version, a tag reference and an
      error, each possibly nil. */
  datatype Lookup = Lookup(version: Option<Version>, tag: Option<TagRef>, err: Option<Error>)

  /** `FindLatestVersion`: the selected tag together with its parsed version. */
  function FindLatestVersion(repo: Repository, majorVersionFilter: int, preRelease: bool, parse: Parser, cmp: Comparator): (r: Lookup)
    ensures r.err.Some? <==> r.tag.None?
    ensures r.err.Some? ==> r.version.None?
    ensures r.tag.Some? ==> r.version.Some? && r.version == parse(r.tag.value.shortName)
    ensures r.tag.Some? ==> HasVersionPrefix(r.tag.value.shortName)
    ensures r.version.Some? ==> PassesFilters(r.version.value, majorVersionFilter, preRelease)
    ensures r.err != Some(NoValidTag)
  {
    match FindLatestVersionTag(repo, majorVersionFilter, preRelease, parse, cmp)
    case Failure(e) => Lookup(None, None, Some(e))
    case Success(tag) => Lookup(TagNameToVersion(tag.shortName, parse), Some(tag), None)
  }

  /** `FindLatestVersion` reports a tag exactly when the selection succeeds,
      and that tag is the selected one. */
  lemma FindLatestVersionSelects(repo: Repository, majorVersionFilter: int, preRelease: bool, parse: Parser, cmp: Comparator)
    requires IsTotalPreorder(cmp)
    ensures var r := FindLatestVersion(repo, majorVersionFilter, preRelease, parse, cmp);
      && (r.tag.Some? <==>
            PrecheckError(repo).None? && FirstError(repo.tags).None? &&
            HasCandidate(repo.tags, majorVersionFilter, preRelease, parse))
      && (r.tag.Some? ==>
            exists k :: SelectedAt(repo.tags, k, majorVersionFilter, preRelease, parse, cmp) && repo.tags[k].ref == r.tag.value)
  {
    FindLatestVersionTagOutcome(repo, majorVersionFilter, preRelease, parse, cmp);
    FindLatestVersionTagSelects(repo, majorVersionFilter, preRelease, parse, cmp);
  }

  /** `FindLatestVersion` passes the selection's error through unchanged:
      a precheck failure, else the first iterator error, else "no matching". */
  lemma FindLatestVersionErrors(repo: Repository, majorVersionFilter: int, preRelease: bool, parse: Parser, cmp: Comparator)
    ensures var r := FindLatestVersion(repo, majorVersionFilter, preRelease, parse, cmp);
      && (PrecheckError(repo).Some? ==> r.err == Some(External(PrecheckError(repo).value)))
      && (PrecheckError(repo).None? && FirstError(repo.tags).Some? ==> r.err == Some(External(FirstError(repo.tags).value)))
      && (PrecheckError(repo).None? && FirstError(repo.tags).None? &&
          !HasCandidate(repo.tags, majorVersionFilter, preRelease, parse)
          ==> r.err == Some(NoMatchingTags))
  {
    FindLatestVersionTagOutcome(repo, majorVersionFilter, preRelease, parse, cmp);
  }

  /** The caller-facing options; the working directory is replaced by the
      outcome of opening the repository. */
  datatype LatestOptions = LatestOptions(includePreReleases: bool, majorVersionFilter: int)

  /** What `Latest` returns: a version (nil only when the repository could not
      be opened) and an error. */
  datatype LatestOutcome = LatestOutcome(version: Option<Version>, err: Option<Error>)

  /** `Latest`: open the repository and report the latest version, falling
      back to `EmptyVersion` whenever no version was found. */
  function Latest(openResult: Result<Repository, string>, options: LatestOptions, parse: Parser, cmp: Comparator): (r: LatestOutcome)
    ensures openResult.Failure? ==> r.version.None? && r.err == Some(CouldNotOpen(openResult.error))
    ensures openResult.Failure? ==> Message(r.err.value) == "Could not open git repository: " + openResult.error
    ensures openResult.Success? && PrecheckError(openResult.value).Some? ==>
      r == LatestOutcome(Some(EmptyVersion), Some(External(PrecheckError(openResult.value).value)))
    ensures openResult.Success? && PrecheckError(openResult.value).None? && FirstError(openResult.value.tags).Some? ==>
      r == LatestOutcome(Some(EmptyVersion), Some(External(FirstError(openResult.value.tags).value)))
    ensures openResult.Success? ==> r.version.Some?
    ensures openResult.Success? && r.err.Some? ==> r.version == Some(EmptyVersion)
    ensures r.err.None? ==> r.version.Some? && PassesFilters(r.version.value, options.majorVersionFilter, options.includePreReleases)
  {
    match openResult
    case Failure(cause) => LatestOutcome(None, Some(CouldNotOpen(cause)))
    case Success(repo) =>
      var found := FindLatestVersion(repo, options.majorVersionFilter, options.includePreReleases, parse, cmp);
      var version := if found.version.None? then EmptyVersion else found.version.value;
      LatestOutcome(Some(version), found.err)
  }

  /** With no candidate tag, `Latest` reports `EmptyVersion` together with the
      "no matching semantic version tags found" error; with one, it reports the
      parse of the selected tag and no error. */
  lemma LatestOutcomes(openResult: Result<Repository, string>, options: LatestOptions, parse: Parser, cmp: Comparator)
    requires IsTotalPreorder(cmp)
    requires openResult.Success? && PrecheckError(openResult.value).None? && FirstError(openResult.value.tags).None?
    ensures !HasCandidate(openResult.value.tags, options.majorVersionFilter, options.includePreReleases, parse) ==>
      Latest(openResult, options, parse, cmp) == LatestOutcome(Some(EmptyVersion), Some(NoMatchingTags))
    ensures HasCandidate(openResult.value.tags, options.majorVersionFilter, options.includePreReleases, parse) ==>
      exists k :: SelectedAt(openResult.value.tags, k, options.majorVersionFilter, options.includePreReleases, parse, cmp) &&
        Latest(openResult, options, parse, cmp) == LatestOutcome(parse(openResult.value.tags[k].ref.shortName), None)
  {
    var repo := openResult.value;
    FindLatestVersionTagOutcome(repo, options.majorVersionFilter, options.includePreReleases, parse, cmp);
    FindLatestVersionTagSelects(repo, options.majorVersionFilter, options.includePreReleases, parse, cmp);
  }
}

=== FILE: max_select.dfy ===
/** The second loop of `findLatestVersionTag`: reduce the candidate list to
    its maximum, re-parsing each name and replacing the running maximum only
    on a strictly greater version, so the first of equal maxima wins. */
module MaxSelect {
  import opened Wrappers
  import opened SemVer
  import opened Git

  /** The running maximum: `latestTag` and `maxVersion`, plus the position in
      the candidate list it was taken from. */
  datatype Best = Best(index: nat, tag: TagRef, version: Version)

  /** The running maximum after scanning `found` from the front. */
  function MaxFold(found: seq<TagRef>, parse: Parser, cmp: Comparator): (r: Option<Best>)
    ensures r.Some? ==>
      && r.value.index < |found|
      && found[r.value.index] == r.value.tag
      && parse(r.value.tag.shortName) == Some(r.value.version)
    ensures r.None? <==> forall k :: 0 <= k < |found| ==> parse(found[k].shortName).None?
  {
    if |found| == 0 then None
    else
      var n := |found| - 1;
      var best := MaxFold(found[..n], parse, cmp);
      match parse(found[n].shortName)
      case None => best
      case Some(v) =>
        if best.None? || cmp(v, best.value.version) > 0 then Some(Best(n, found[n], v)) else best
  }

  /** Position `i` holds a maximum of the parseable tags of `found`, and every
      parseable tag before it is strictly smaller: it is the first maximum. */
  ghost predicate IsFirstMaximum(found: seq<TagRef>, i: int, parse: Parser, cmp: Comparator) {
    && 0 <= i < |found|
    && parse(found[i].shortName).Some?
    && (forall j :: 0 <= j < |found| && parse(found[j].shortName).Some? ==>
          cmp(parse(found[j].shortName).value, parse(found[i].shortName).value) <= 0)
    && (forall j :: 0 <= j < i && parse(found[j].shortName).Some? ==>
          cmp(parse(found[j].shortName).value, parse(found[i].shortName).value) < 0)
  }

  /** Scanning one more tag keeps the running maximum the first maximum. */
  lemma MaxStepKeepsFirstMaximum(found: seq<TagRef>, parse: Parser, cmp: Comparator)
    requires IsTotalPreorder(cmp)
    requires |found| > 0
    requires MaxFold(found[..|found| - 1], parse, cmp).Some? ==>
      IsFirstMaximum(found[..|found| - 1], MaxFold(found[..|found| - 1], parse, cmp).value.index, parse, cmp)
    ensures MaxFold(found, parse, cmp).Some? ==> IsFirstMaximum(found, MaxFold(found, parse, cmp).value.index, parse, cmp)
  {
    var n := |found| - 1;
    var prefix := found[..n];
    var best := MaxFold(prefix, parse, cmp);
    var x := parse(found[n].shortName);
    if x.None? {
      assert MaxFold(found, parse, cmp) == best;
      if best.Some? {
        PrefixFirstMaximum(found, best.value.index, parse, cmp);
      }
    } else if best.None? {
      assert MaxFold(found, parse, cmp) == Some(Best(n, found[n], x.value));
      FirstParseableIsFirstMaximum(found, parse, cmp);
    } else {
      var v := x.value;
      var m := best.value.version;
      var i := best.value.index;
      if cmp(v, m) > 0 {
        assert MaxFold(found, parse, cmp) == Some(Best(n, found[n], v));
        NewFirstMaximum(found, i, parse, cmp);
      } else {
        assert MaxFold(found, parse, cmp) == best;
        PrefixFirstMaximum(found, i, parse, cmp);
      }
    }
  }

  /** When no earlier tag parses, a last tag that parses is the first maximum. */
  lemma FirstParseableIsFirstMaximum(found: seq<TagRef>, parse: Parser, cmp: Comparator)
    requires Reflexive(cmp)
    requires |found| > 0 && parse(found[|found| - 1].shortName).Some?
    requires MaxFold(found[..|found| - 1], parse, cmp).None?
    ensures IsFirstMaximum(found, |found| - 1, parse, cmp)
  {
  }

  /** A first maximum of the prefix stays the first maximum when the last tag
      does not parse or is not greater. */
  lemma PrefixFirstMaximum(found: seq<TagRef>, i: int, parse: Parser, cmp: Comparator)
    requires |found| > 0
    requires IsFirstMaximum(found[..|found| - 1], i, parse, cmp)
    requires var x := parse(found[|found| - 1].shortName);
      x.Some? ==> cmp(x.value, parse(found[i].shortName).value) <= 0
    ensures IsFirstMaximum(found, i, parse, cmp)
  {
  }

  /** A last tag strictly greater than the first maximum of the prefix is the
      first maximum of the whole list. */
  lemma NewFirstMaximum(found: seq<TagRef>, i: int, parse: Parser, cmp: Comparator)
    requires IsTotalPreorder(cmp)
    requires |found| > 0
    requires IsFirstMaximum(found[..|found| - 1], i, parse, cmp)
    requires var x := parse(found[|found| - 1].shortName);
      x.Some? && cmp(x.value, parse(found[i].shortName).value) > 0
    ensures IsFirstMaximum(found, |found| - 1, parse, cmp)
  {
  }

  /** The fold finds the first maximum. */
  lemma {:induction false} MaxFoldIsFirstMaximum(found: seq<TagRef>, parse: Parser, cmp: Comparator)
    requires IsTotalPreorder(cmp)
    ensures MaxFold(found, parse, cmp).Some? ==> IsFirstMaximum(found, MaxFold(found, parse, cmp).value.index, parse, cmp)
    decreases |found|
  {
    if |found| > 0 {
      MaxFoldIsFirstMaximum(found[..|found| - 1], parse, cmp);
      MaxStepKeepsFirstMaximum(found, parse, cmp);
    }
  }

  /** The first maximum is unique, so the tie-break is deterministic. */
  lemma FirstMaximumUnique(found: seq<TagRef>, i: int, i': int, parse: Parser, cmp: Comparator)
    requires IsTotalPreorder(cmp)
    requires IsFirstMaximum(found, i, parse, cmp) && IsFirstMaximum(found, i', parse, cmp)
    ensures i == i'
  {
  }
}

=== FILE: semver.dfy ===
/** The semantic-version package the resolver depends on. Its parser and its
    comparator are not part of this model: they are handed to the resolver as
    function values, and the only things assumed of them are determinism (every
    Dafny function value is deterministic) and, for the comparator, that it is a
    total preorder. */
module SemVer {
  import opened Wrappers

  /** A parsed semantic version. The resolver reads only `major` and
      `preReleaseTag`; the other fields are carried along. */
  datatype Version = Version(
    major: int,
    minor: int,
    patch: int,
    preReleaseTag: seq<string>,
    buildMetadataTag: seq<string>)

  /** The sentinel `0.0.0`, reported when no tag matches. */
  const EmptyVersion: Version := Version(0, 0, 0, [], [])

  /** Parses a tag's short name; `None` stands for a parse error. */
  type Parser = string -> Option<Version>

  /** Three-way comparison: positive when the first version is the greater. */
  type Comparator = (Version, Version) -> int

  ghost predicate Reflexive(cmp: Comparator) {
    forall a :: cmp(a, a) == 0
  }

  /** `a > b` exactly when `b < a`. */
  ghost predicate SignAntisymmetric(cmp: Comparator) {
    forall a, b :: cmp(a, b) > 0 <==> cmp(b, a) < 0
  }

  ghost predicate Transitive(cmp: Comparator) {
    forall a, b, c :: cmp(a, b) <= 0 && cmp(b, c) <= 0 ==> cmp(a, c) <= 0
  }

  ghost predicate Total(cmp: Comparator) {
    forall a, b :: cmp(a, b) <= 0 || cmp(b, a) <= 0
  }

  /** What the resolver needs of `CompareVersions`. Versions that differ only
      in build metadata may compare equal, so this is a preorder, not an order.
      Reflexivity and totality already follow from sign-antisymmetry; they are
      listed so that each property of a total preorder is named. */
  ghost predicate IsTotalPreorder(cmp: Comparator) {
    Reflexive(cmp) && SignAntisymmetric(cmp) && Transitive(cmp) && Total(cmp)
  }
}

=== FILE: tag_filter.dfy ===
/** The first loop of `findLatestVersionTag`: which tags become candidates
    for "latest", and the order-preserving list of them. */
module TagFilter {
  import opened Wrappers
  import opened SemVer
  import opened Git

  /** Only names beginning with `v` are treated as version tags. */
  predicate HasVersionPrefix(name: string) {
    "v" <= name
  }

  /** The pre-release and major-version filters. A negative major filter (the
      command line's default is -1) imposes no restriction. */
  predicate PassesFilters(v: Version, majorVersionFilter: int, includePreReleases: bool) {
    && (includePreReleases || |v.preReleaseTag| == 0)
    && (majorVersionFilter < 0 || v.major == majorVersionFilter)
  }

  /** A tag survives the prefix check, the parse and both filters. */
  predicate IsCandidate(t: TagRef, majorVersionFilter: int, includePreReleases: bool, parse: Parser) {
    && HasVersionPrefix(t.shortName)
    && parse(t.shortName).Some?
    && PassesFilters(parse(t.shortName).value, majorVersionFilter, includePreReleases)
  }

  /** Some tag of the stream is a candidate. */
  ghost predicate HasCandidate(items: seq<TagItem>, majorVersionFilter: int, includePreReleases: bool, parse: Parser) {
    exists j :: 0 <= j < |items| && items[j].Tag? && IsCandidate(items[j].ref, majorVersionFilter, includePreReleases, parse)
  }

  /** The candidate tags of the stream, in iteration order (`foundTags`).
      Iterator errors are not candidates; whether they abort is decided by
      `FirstError`. */
  function Candidates(items: seq<TagItem>, majorVersionFilter: int, includePreReleases: bool, parse: Parser): (r: seq<TagRef>)
    ensures |r| <= |items|
    ensures forall k :: 0 <= k < |r| ==> IsCandidate(r[k], majorVersionFilter, includePreReleases, parse)
  {
    if |items| == 0 then []
    else
      var rest := Candidates(items[..|items| - 1], majorVersionFilter, includePreReleases, parse);
      var last := items[|items| - 1];
      if last.Tag? && IsCandidate(last.ref, majorVersionFilter, includePreReleases, parse) then rest + [last.ref] else rest
  }

  /** Filtering distributes over concatenation: the candidates keep their
      relative iteration order. */
  lemma {:induction false} CandidatesAppend(a: seq<TagItem>, b: seq<TagItem>, majorVersionFilter: int, includePreReleases: bool, parse: Parser)
    ensures Candidates(a + b, majorVersionFilter, includePreReleases, parse)
         == Candidates(a, majorVersionFilter, includePreReleases, parse) + Candidates(b, majorVersionFilter, includePreReleases, parse)
    decreases |b|
  {
    if |b| == 0 {
      assert a + b == a;
    } else {
      var n := |b| - 1;
      assert (a + b)[..|a + b| - 1] == a + b[..n];
      assert (a + b)[|a + b| - 1] == b[n];
      CandidatesAppend(a, b[..n], majorVersionFilter, includePreReleases, parse);
    }
  }

  /** An item that is not a candidate tag can be dropped from the stream
      without changing the candidate list. */
  lemma SkippedItemIgnored(a: seq<TagItem>, x: TagItem, b: seq<TagItem>, majorVersionFilter: int, includePreReleases: bool, parse: Parser)
    requires !(x.Tag? && IsCandidate(x.ref, majorVersionFilter, includePreReleases, parse))
    ensures Candidates(a + [x] + b, majorVersionFilter, includePreReleases, parse)
         == Candidates(a + b, majorVersionFilter, includePreReleases, parse)
  {
    CandidatesAppend(a + [x], b, majorVersionFilter, includePreReleases, parse);
    CandidatesAppend(a, [x], majorVersionFilter, includePreReleases, parse);
    CandidatesAppend(a, b, majorVersionFilter, includePreReleases, parse);
    assert [x][..0] == [];
  }

  /** Every candidate tag of the stream is listed, and the tags listed before
      it are exactly the candidates that precede it in the stream. */
  lemma CandidatePosition(items: seq<TagItem>, j: nat, majorVersionFilter: int, includePreReleases: bool, parse: Parser) returns (i: nat)
    requires j < |items| && items[j].Tag? && IsCandidate(items[j].ref, majorVersionFilter, includePreReleases, parse)
    ensures i < |Candidates(items, majorVersionFilter, includePreReleases, parse)|
    ensures Candidates(items, majorVersionFilter, includePreReleases, parse)[i] == items[j].ref
    ensures Candidates(items, majorVersionFilter, includePreReleases, parse)[..i]
         == Candidates(items[..j], majorVersionFilter, includePreReleases, parse)
  {
    var before := items[..j];
    var after := items[j + 1..];
    assert items == before + [items[j]] + after;
    CandidatesAppend(before + [items[j]], after, majorVersionFilter, includePreReleases, parse);
    CandidatesAppend(before, [items[j]], majorVersionFilter, includePreReleases, parse);
    assert [items[j]][..0] == [];
    i := |Candidates(before, majorVersionFilter, includePreReleases, parse)|;
  }

  /** Every listed tag comes from the stream, and the candidates listed before
      it are exactly those that precede its stream position. */
  lemma {:induction false} CandidateOrigin(items: seq<TagItem>, i: nat, majorVersionFilter: int, includePreReleases: bool, parse: Parser) returns (k: nat)
    requires i < |Candidates(items, majorVersionFilter, includePreReleases, parse)|
    ensures k < |items|
    ensures items[k] == Tag(Candidates(items, majorVersionFilter, includePreReleases, parse)[i])
    ensures Candidates(items[..k], majorVersionFilter, includePreReleases, parse)
         == Candidates(items, majorVersionFilter, includePreReleases, parse)[..i]
    decreases |items|
  {
    var n := |items| - 1;
    var found := Candidates(items, majorVersionFilter, includePreReleases, parse);
    var rest := Candidates(items[..n], majorVersionFilter, includePreReleases, parse);
    if i == |rest| {
      k := n;
    } else {
      k := CandidateOrigin(items[..n], i, majorVersionFilter, includePreReleases, parse);
      assert items[..n][..k] == items[..k];
      assert found[..i] == rest[..i];
    }
  }

  /** There is a candidate in the stream exactly when the list is non-empty. */
  lemma HasCandidateIffNonEmpty(items: seq<TagItem>, majorVersionFilter: int, includePreReleases: bool, parse: Parser)
    ensures HasCandidate(items, majorVersionFilter, includePreReleases, parse)
        <==> |Candidates(items, majorVersionFilter, includePreReleases, parse)| > 0
  {
  }

  /** All negative major filters behave alike: none restricts the major. */
  lemma {:induction false} NegativeMajorFiltersAgree(items: seq<TagItem>, f1: int, f2: int, includePreReleases: bool, parse: Parser)
    requires f1 < 0 && f2 < 0
    ensures Candidates(items, f1, includePreReleases, parse) == Candidates(items, f2, includePreReleases, parse)
    decreases |items|
  {
    if |items| > 0 {
      NegativeMajorFiltersAgree(items[..|items| - 1], f1, f2, includePreReleases, parse);
    }
  }
}

=== FILE: wrappers.dfy ===
/** Wrappers used throughout the model: `Option` stands for a
    Go pointer that may be nil, `Result` for a Go `(value, error)` pair. */
module Wrappers {

  datatype Option<+T> = None | Some(value: T)

  datatype Result<+R, +E> = Success(value: R) | Failure(error: E)
}
